=== FILE: README.md ===
# anyproxy socks-proxy core, in Dafny

This project models the core of `anyproxy`. That is a SOCKS5 proxy that ignores the destination a
client asks for and dials a fixed, configurable target instead. It covers three parts.

- **The address pipeline** (`rewriting.dfy`, `rewriter_laws.dfy`, `resolving.dfy`). These are the
  rewriters that map a request's destination `AddrSpec` (name, IP, port) to the address really
  dialled: the port mapper, the redirect, host translation and the ordered chain. The part also
  covers the fixed-answer name resolver. Every rewriter is a variant of one `Rewriter` datatype,
  interpreted by `Rewrite`. The request context is `Live` or `Done(reason)`.
- **The connection tracker and shutdown** (`packed_state.dfy`, `server.dfy`, `lifecycle.dfy`,
  `poll_interval.dfy`). This part models the server as an immutable record. The record holds the
  listener, the one-shot close guard and its cached error, the shutdown flag, the tracked
  connection set, and each connection's packed state word. Each critical section of socks.go is
  one function or method over that record. Some steps merge two sections: `setState`, and every
  step that touches the atomic `inShutdown` flag, which takes that access together with the
  locked section next to it (see `SocksServer.SetState` and `SocksServer.BeginShutdown` under
  Left out). `Lifecycle.Run` strings such steps together in any
  order. `Lifecycle.Shutdown` runs the polling loop round by round.
- **`proxyConfig`** (`anyproxy.dfy`). This is the policy that turns the command-line flags into
  the listen address, the resolver and the rewriter chain.

Shared values live in `wrappers.dfy` and `net.dfy`. `Option`, `Result` (`Ok`, `Err` for a Go
error, `Panic` for a Go panic) and the error values are in `wrappers.dfy`. Bytes, IPs,
`AddrSpec`, Go's 64-bit integers, `strconv.Atoi` and `net.JoinHostPort` are in `net.dfy`.

Things that happen outside the program become parameters:

- the clock (`now`, in Unix seconds);
- the listener's own `Close` result (`closeResult`);
- the random number behind the poll jitter (`rnd`);
- the two address parsers `net.ParseIP` and `statute.ParseAddrSpec` (a `Parsers` record).

## Model

| member | source | states |
|---|---|---|
| `Rewriting.Rewrite` | socks-proxy/rewriter.go:22-33 | On a live context every rewriter answers an address; only a redirect on a cancelled context answers nil |
| `Rewriting.Fold` | socks-proxy/chain.go:24-32 | With the context read once for the whole chain, a live chain never hands nil to its next rewriter and answers an address |
| `Rewriting.RedirectTo` | socks-proxy/rewriter.go:37-44 | An error and no rewriter exactly when the address fails to parse; otherwise a redirect to the parsed address |
| `Net.Atoi` | socks-proxy/port_map.go:50-51 | The ignored-error `strconv.Atoi`, over its fast path for short strings and `ParseInt` for the rest. If the digits after the sign exceed uint64 before any non-digit, the result is the int64 bound on the sign's side. Otherwise a non-numeric string gives 0, and a numeric one gives its value clamped to int64 |
| `Net.ParseInt` | socks-proxy/port_map.go:50-51 | `strconv.ParseInt(s, 10, 64)` with the error dropped has the same three outcomes, stated without the digit scan |
| `Net.ScanDigitsReads` | socks-proxy/port_map.go:50-51 | `ParseUint`'s digit loop gives a range error exactly when the leading digits exceed uint64, their value when the whole rest is digits, and a syntax error otherwise |
| `Net.AtoiDigitsThenJunk` | socks-proxy/port_map.go:50-51 | Digits followed by a non-digit read as 0 when they fit in uint64, and as MaxInt64 (or MinInt64 after a minus) when they do not |
| `Net.AtoiDecimal` | socks-proxy/port_map.go:50-51 | Every decimal port string parses back to the number it spells |
| `RewriterLaws.PortMapCancelled` | socks-proxy/port_map.go:23-25 | On a cancelled context the mapper returns the requested destination unchanged |
| `RewriterLaws.PortMapSkipsOtherPorts` | socks-proxy/port_map.go:28-30 | With `from > 0` and another requested port, the output is the input |
| `RewriterLaws.PortMapSetsPort` | socks-proxy/port_map.go:28-38 | A wildcard or matching `from` with `to > 0` yields the requested host on port `to` |
| `RewriterLaws.PortMapDisabled` | socks-proxy/port_map.go:33-38 | With `to <= 0` the output is the input, even on a match |
| `RewriterLaws.PortMapOnlyChangesPort` | socks-proxy/port_map.go:28-41 | Name and IP are kept; the port changes exactly when the request matches, `to > 0` and `to` differs |
| `RewriterLaws.PortMapIdempotent` | socks-proxy/port_map.go:28-41 | Mapping twice equals mapping once |
| `RewriterLaws.MapPortZeroZero` | socks-proxy/port_map.go:46-47 | `MapPort("0","0")` returns every destination unchanged |
| `RewriterLaws.MapPortBadFromIsWildcard` | socks-proxy/port_map.go:50-52 | A non-numeric `from` whose digits do not overflow first acts as the wildcard |
| `RewriterLaws.MapPortOverflowingFrom` | socks-proxy/port_map.go:28-52 | A `from` whose digits overflow first is MinInt64 after a minus, which is a wildcard, and otherwise MaxInt64, which matches no other port |
| `RewriterLaws.MapPortBadToPreserves` | socks-proxy/port_map.go:50-52 | A non-numeric `to` whose digits do not overflow first keeps every destination |
| `RewriterLaws.MapPortOverflowingTo` | socks-proxy/port_map.go:36-52 | A `to` whose digits overflow first keeps every destination after a minus, and otherwise sends a matching request to port MaxInt64 |
| `RewriterLaws.RedirectCancelled` | socks-proxy/rewriter.go:23-24 | On a cancelled context the redirect answers nil, not the request |
| `RewriterLaws.RedirectKeepsRequestedPort` | socks-proxy/rewriter.go:26-29 | A configured port of 0 yields the configured name/IP on the requested port |
| `RewriterLaws.RedirectFixed` | socks-proxy/rewriter.go:26-27 | A non-zero configured port yields the configured address whatever the request |
| `RewriterLaws.RedirectIgnoresHost` | socks-proxy/rewriter.go:26-32 | Requests that differ only in host get the same answer; redirecting twice equals redirecting once |
| `RewriterLaws.LoopbackRewriterKeepsPort` | socks-proxy/rewriter.go:11 | `LoopbackRewriter` sends every request to 127.0.0.1 on its own port |
| `RewriterLaws.HostTranslateCancelled` | socks-proxy/host_translate.go:21-23 | On a cancelled context translation returns the destination unchanged |
| `RewriterLaws.HostTranslateLive` | socks-proxy/host_translate.go:25-31 | The output is the configured IP on the requested port, with the name dropped; translating is idempotent |
| `RewriterLaws.RewriteHostNotAnIP` | socks-proxy/host_translate.go:35-36 | A host string that is not an IP translates every request to the nil IP |
| `RewriterLaws.EmptyChainIsIdentity` | socks-proxy/chain.go:16-19 | The nil rewriter and the empty chain return the destination unchanged |
| `RewriterLaws.FoldSnoc` | socks-proxy/chain.go:24-30 | The last rewriter of a chain receives the output of all earlier ones |
| `RewriterLaws.FoldAppend` | socks-proxy/chain.go:24-32 | Running `a + b` is running `a` and then `b` on its output |
| `RewriterLaws.ChainFlatten` | socks-proxy/chain.go:24-32 | A chain nested in a chain equals its rewriters spliced in place |
| `RewriterLaws.NewChainActsAsChain` | socks-proxy/chain.go:35-43 | `NewChain` of zero, one or many rewriters behaves as the full chain |
| `RewriterLaws.CancelledRewrite` | socks-proxy/rewriter.go:22-24 | On a cancelled context a rewriter answers nil if it contains a redirect and returns its input otherwise |
| `RewriterLaws.CancelledFold` | socks-proxy/chain.go:24-30 | On a cancelled context one redirect's nil survives every later rewriter of the chain |
| `Resolving.Resolve` | socks-proxy/resolver.go:23-28 | An error exactly when the context is done, and then the context's error with a nil IP |
| `Resolving.ResolveLive` | socks-proxy/resolver.go:26-28 | On a live context the answer is the configured IP with no error |
| `Resolving.ResolveIgnoresName` | socks-proxy/resolver.go:16-28 | The queried name never changes the answer |
| `Resolving.LoopbackResolverAnswers` | socks-proxy/resolver.go:11 | `LoopbackResolver` answers 127.0.0.1 |
| `PackedState.Pack` | socks-proxy/socks.go:55 | The packed word's low byte is the state |
| `PackedState.Unpack` | socks-proxy/socks.go:59-62 | `getState` yields a one-byte state and a time below 2^56 |
| `PackedState.UnpackPack` | socks-proxy/socks.go:55-61 | Unpacking a packed word gives the state and the Unix time modulo 2^56 |
| `PackedState.PackRoundTrip` | socks-proxy/socks.go:42-62 | For 0 ≤ state ≤ 0xff and 0 ≤ t < 2^56, `getState` after `setState` at t is (state, t) |
| `SocksServer.TrackConn` | socks-proxy/socks.go:108-121 | Adds or deletes exactly one connection of the tracked set |
| `SocksServer.SetState` | socks-proxy/socks.go:42-57 | New registers, Closed deregisters, other states keep membership; no other entry changes; out-of-byte states panic |
| `SocksServer.CloseIdleConns` | socks-proxy/socks.go:123-151 | Removes exactly the new connections older than now−3 and keeps every active one. Returns true iff nothing is left. Panics iff a tracked time is zero |
| `SocksServer.SweepDrainsIdle` | socks-proxy/socks.go:137-150 | A sweep reports quiescence exactly when every tracked connection was new and idle |
| `SocksServer.CloseListener` | socks-proxy/socks.go:196-202 | The listener's Close runs only on the first call; every call returns the cached error; a nil listener panics |
| `SocksServer.CloseAndClearListener` | socks-proxy/socks.go:204-211 | Closes the listener once, counting that close. The first call returns the listener's own close result and caches it; later calls return the cached error. Afterwards the listener is forgotten. Nothing else in the server changes; a nil listener that was never closed panics |
| `SocksServer.ServeEnter` | socks-proxy/socks.go:166-176 | A shutting-down server returns ErrServerClosed at once; otherwise the listener is stored |
| `SocksServer.Accepted` | socks-proxy/socks.go:97-106 | Every accepted connection is tracked in state New before it is served |
| `SocksServer.AcceptFailed` | socks-proxy/socks.go:180-188 | An accept error returns ErrServerClosed when shutting down and the raw error otherwise; the listener is closed and cleared |
| `SocksServer.Close` | socks-proxy/socks.go:213-225 | Afterwards the server is shutting down, tracks nothing, and returns the cached listener error |
| `SocksServer.BeginShutdown` | socks-proxy/socks.go:227-234 | Sets the shutdown flag and closes the listener once, leaving the connections alone |
| `Lifecycle.Shutdown` | socks-proxy/socks.go:227-262 | Returns the listener error only with the tracker empty, or a context error the rounds supplied. If the connections are all idle and new at the clock of some round, and every earlier round found the context live, the result is Drained. Every wait lies in [base, base + base/10) |
| `Lifecycle.StepMonotone` | socks-proxy/socks.go:213-228 | No step clears the shutdown flag, re-runs the listener's Close, or changes its cached error |
| `Lifecycle.RunMonotone` | socks-proxy/socks.go:196-202 | Over any interleaving, shutdown once begun stays begun and the close guard and its error are stable |
| `Lifecycle.ListenerClosedAtMostOnce` | socks-proxy/socks.go:196-202 | From a fresh server, no run calls the listener's Close twice |
| `Lifecycle.ServeAfterShutdown` | socks-proxy/socks.go:183-185 | After any Shutdown or Close, Serve's entry and accept errors return ErrServerClosed |
| `PollInterval.NextPollInterval` | socks-proxy/socks.go:237-247 | The interval lies in [base, base + base/10). The next base is twice the base when that fits within 500ms, and 500ms otherwise |
| `PollInterval.NextBase` | socks-proxy/socks.go:237-245 | The base after k polls is min(2^k ms, 500ms): 1, 2, …, 256ms, then 500ms |
| `PollInterval.IntervalBounds` | socks-proxy/socks.go:18 | Every wait lies between 1ms and 550ms |
| `AnyProxy.ProxyConfig` | cmd/anyproxy/main.go:107-146 | An empty target port panics, and a non-IP target or unparsable address is an error. An empty target uses the listen host. Target port "0" adds the 80/443 mappings before the redirect; otherwise there is one redirect |
| `AnyProxy.DefaultPorts` | cmd/anyproxy/main.go:120-124 | The default port strings parse to 80, 443, 8080 and 8443 |
| `AnyProxy.DefaultFlagsConfig` | cmd/anyproxy/main.go:116-145 | The default flags listen on 127.0.0.1:8000, resolve to 127.0.0.1, and chain MapPort(80→8080), MapPort(443→8443), Redirect(127.0.0.1:0) |
| `AnyProxy.DefaultChainRoutes` | cmd/anyproxy/main.go:22-28 | That chain sends port 80 to 127.0.0.1:8080 and 443 to 127.0.0.1:8443; any other port goes to 127.0.0.1 on itself |
| `AnyProxy.DefaultFlagsRoute` | cmd/anyproxy/main.go:107-146 | With default flags, requests to ports 80, 443 and 22 land on 127.0.0.1:8080, :8443 and :22 |

## Behaviour kept as written

These behaviours could look like slips, but the model keeps each one as the code has it.

- **Cancelled redirect.** On a cancelled context the port mapper and host translation return
  the request's own address. The redirect returns nil instead. A chain then passes that nil on,
  so a cancelled chain containing a redirect answers nil (`RewriterLaws.CancelledRewrite`).
- **Shutdown of an empty tracker.** It returns at the first sweep. The value it returns is
  whatever the listener's Close returned, which is cached; that value may be an error.
- **Idle threshold.** A new connection counts as idle when its stamp is strictly older than
  `now - 3` seconds.

## Left out

- Goroutines, `sync.Mutex`, `sync.Once` and the atomics. Each critical section is one step, and
  steps are applied in a sequential order. The exceptions are `setState`, and every step that
  touches the atomic `inShutdown` flag: `Close` and the start of `Shutdown` (store, then lock),
  and `Serve`'s entry (socks.go:170, then socks.go:174-176) and accept-error path (socks.go:183,
  then the deferred socks.go:167). Each of these merges two sections into one step (see below). Thread safety
  is not modelled.
- `SocksServer.SetState`: takes `trackConn` (socks.go:44-49) and the atomic store of the packed
  word (socks.go:55-56) as one step. In Go they are two, and a sweep between them sees a tracked
  connection whose word is still 0. `closeIdleConns` (socks.go:129-135) reads stamp 0 and panics
  with "attempted to close untracked connection". The model reaches a zero stamp only when `now`
  is a multiple of 2^56, so it does not reach this panic from that window.
- `SocksServer.BeginShutdown` and `SocksServer.Close`: each takes the atomic
  `inShutdown.Store(true)` (socks.go:214, socks.go:228) and the locked `closeListener` that follows
  (socks.go:215-217, socks.go:232-234) as one step. So in the model a shutting-down server always
  has its listener closed already. In Go, a `Serve` or an accept error between the two sections
  sees the flag and runs the `sync.Once` itself, through its deferred `closeAndClearListener`.
  If `Serve` has not stored a listener yet, that call panics on the nil listener. The model does
  not reach this case, so the `Panic` disjunct of `SocksServer.ServeEnter`'s contract never occurs.
- `Lifecycle.Shutdown`: no other goroutine runs between its poll rounds. Active connections
  cannot finish, and in-flight `serveConn` calls cannot register new connections. So the result
  is `Drained` only when every tracked connection is an idle `New` one. The clause
  `tracked <= s.tracked` holds only because of this freeze. `Lifecycle.Run` does interleave
  steps, but it does not interleave them with `Shutdown`'s rounds.
- Sockets. Accepting, reading, writing and closing real connections are absent, and so is the
  blocking of `Accept`. The accept outcomes arrive as `Lifecycle.Op` values.
- The underlying `c.Conn.Close()` calls in the sweeps. Conn I/O is modelled only through its
  `setState` calls.
- Timers and the real clock. `closeIdleConns` reads the clock once per connection; the model
  uses one `now` for the whole sweep. The `int64` wrap of `now - 3` near the minimum time is not
  modelled.
- `rand.Intn`. It becomes a natural number `rnd` reduced modulo the bound.
- The blocking timer wait of `Shutdown`. The rounds are given as a sequence, and a round whose
  context is done stands for the `select` taking the context branch.
- The SOCKS5 wire protocol and `ServeConn` of the go-socks5 library. Also `newServer`,
  `NewServerFor`, the goroutine of `serveConn`, and all logging.
- `net.ParseIP` and `statute.ParseAddrSpec`. They are parameters and are never defined. The
  end-to-end lemmas state the answers they need for "127.0.0.1" and "127.0.0.1:0".
- `NoRewrite`. Its definition is not part of this model. It is modelled as the identity, like
  the nil rewriter that `NewChain()` returns, which the engine skips at top level.
- `Rewriting.Fold`: a nil rewriter inside a chain is the identity here. In Go, `chain.Rewrite`
  calls every element (chain.go:24-30; the nil check at lines 25-27 is commented out), so a nil
  element panics. This happens for `NewChain(NewChain(), x)`, for example. The model does not
  promise that panic. Also, `Fold` reads the context once for the whole chain. In Go, each
  element checks `ctx.Done()` when it is called (chain.go:29, rewriter.go:22-24,
  port_map.go:23-25). A cancellation between two elements therefore makes the later elements take
  their cancelled branch, so a chain that started live can answer nil if it contains a redirect.
  The contract's "a live context answers an address" holds only for the context as sampled at
  the start.
- The `AddrType` byte of `statute.AddrSpec`. No rewriter here reads it.
- The copy of the request in `chain.Rewrite`. In the model all values are immutable, so the
  caller's request can never be replaced.
- `Rewriting.Rewrite`: it requires a non-nil destination on a live context, even for rewriters
  that would not read it (a redirect with a non-zero port, the nil rewriter). The SOCKS engine
  always supplies one.
- `proxyConfig`'s write of the listen host back into the `-target` flag variable. Nothing in
  the core reads that flag again.
- `main`, flag parsing, signal handling, logging setup and the http-echo servers.

=== FILE: anyproxy.dfy ===
/**
  `proxyConfig` of cmd/anyproxy: the policy that turns the command-line
  flags into the SOCKS server's listen address, resolver and rewriter chain.
 */
module AnyProxy {
  import opened Wrappers
  import opened Net
  import opened Rewriting
  import opened Resolving

  /** The string flags `proxyConfig` reads. */
  datatype Flags = Flags(
    listen: string,      // -listen
    port: string,        // -port
    httpPort: string,    // -http-port
    httpsPort: string,   // -https-port
    target: string,      // -target
    targetPort: string)  // -target-port

  const DefaultFlags: Flags := Flags("127.0.0.1", "8000", "8080", "8443", "", "0")

  /** `socksproxy.Config`. */
  datatype Config = Config(listenAddress: string, resolver: Resolver, rewriter: Rewriter)

  /** An empty target stands for the listen host, where the built-in HTTP(S) servers run. */
  function TargetHost(f: Flags): string {
    if f.target == "" then f.listen else f.target
  }

  /** The port mappings towards the built-in HTTP(S) servers, used only for an empty target and target port "0". */
  function PortMappings(f: Flags): seq<Rewriter> {
    if f.target == "" && f.targetPort == "0" then [MapPort("80", f.httpPort), MapPort("443", f.httpsPort)]
    else []
  }

  /**
    `proxyConfig()`: panics on an empty target port; fails when the target
    host is not an IP or the target address does not parse; otherwise
    resolves every name to the target IP and rewrites through the port
    mappings followed by one redirect to the target.
   */
  function ProxyConfig(p: Parsers, f: Flags): (r: Result<Config>)
    ensures r.Panic? <==> f.targetPort == ""
    ensures r.Err? <==> (f.targetPort != "" &&
      (p.parseIP(TargetHost(f)).None? || p.parseAddrSpec(JoinHostPort(TargetHost(f), f.targetPort)).None?))
    ensures r.Err? && p.parseIP(TargetHost(f)).None? ==> r.error == NotAnIP
    ensures r.Ok? ==>
      && r.value.listenAddress == JoinHostPort(f.listen, f.port)
      && r.value.resolver == WithResponse(p.parseIP(TargetHost(f)).value)
    ensures r.Ok? && f.target == "" && f.targetPort == "0" ==>
      r.value.rewriter == Chain([MapPort("80", f.httpPort), MapPort("443", f.httpsPort),
                                 Redirect(p.parseAddrSpec(JoinHostPort(f.listen, "0")).value)])
    ensures r.Ok? && !(f.target == "" && f.targetPort == "0") ==>
      r.value.rewriter == Redirect(p.parseAddrSpec(JoinHostPort(TargetHost(f), f.targetPort)).value)
  {
    if f.targetPort == "" then Panic("invalid -target-port=<empty>")
    else
      var host := TargetHost(f);
      var mappings := PortMappings(f);
      match p.parseIP(host)
      case None => Err(NotAnIP)
      case Some(targetAddr) =>
        match RedirectTo(p, JoinHostPort(host, f.targetPort))
        case Ok(addrRewriter) =>
          assert |mappings + [addrRewriter]| >= 1;
          assert mappings != [] ==> mappings + [addrRewriter] == [mappings[0], mappings[1], addrRewriter];
          Ok(Config(JoinHostPort(f.listen, f.port), WithResponse(targetAddr), NewChain(mappings + [addrRewriter])))
        case Err(e) => Err(e)
        case Panic(why) => Panic(why)
  }

  /** The port strings of the default flags read as the numbers they spell. */
  lemma DefaultPorts()
    ensures Atoi("80") == 80 && Atoi("443") == 443 && Atoi("8080") == 8080 && Atoi("8443") == 8443
  {
    assert Decimal(80) == "80" by {
      assert Decimal(8) == "8";
    }
    assert Decimal(443) == "443" by {
      assert Decimal(4) == "4";
      assert Decimal(44) == "44";
    }
    assert Decimal(8080) == "8080" by {
      assert Decimal(8) == "8";
      assert Decimal(80) == "80";
      assert Decimal(808) == "808";
    }
    assert Decimal(8443) == "8443" by {
      assert Decimal(8) == "8";
      assert Decimal(84) == "84";
      assert Decimal(844) == "844";
    }
    AtoiDecimal(80);
    AtoiDecimal(443);
    AtoiDecimal(8080);
    AtoiDecimal(8443);
  }

  /** The two port mappings of the default flags. */
  lemma DefaultMappings()
    ensures PortMappings(DefaultFlags) == [PortMap(80, 8080), PortMap(443, 8443)]
  {
    DefaultPorts();
  }

  /** The chain the default flags build: the two built-in port mappings, then a redirect to loopback. */
  const DefaultChain: Rewriter :=
    Chain([PortMap(80, 8080), PortMap(443, 8443), Redirect(AddrSpec("", Loopback, 0))])

  /**
    With the default flags, and parsers that read "127.0.0.1" and
    "127.0.0.1:0" as loopback, the proxy listens on 127.0.0.1:8000,
    resolves every name to 127.0.0.1, and rewrites through `DefaultChain`.
   */
  lemma DefaultFlagsConfig(p: Parsers)
    requires p.parseIP("127.0.0.1") == Some(Loopback)
    requires p.parseAddrSpec("127.0.0.1:0") == Some(AddrSpec("", Loopback, 0))
    ensures ProxyConfig(p, DefaultFlags) == Ok(Config("127.0.0.1:8000", LoopbackResolver, DefaultChain))
  {
    var f := DefaultFlags;
    assert TargetHost(f) == "127.0.0.1";
    assert JoinHostPort("127.0.0.1", "0") == "127.0.0.1:0";
    assert JoinHostPort("127.0.0.1", "8000") == "127.0.0.1:8000";
    var r := ProxyConfig(p, f);
    assert r.Ok?;
    DefaultMappings();
    assert r.value.rewriter == Chain([MapPort("80", "8080"), MapPort("443", "8443"),
                                      Redirect(AddrSpec("", Loopback, 0))]);
  }

  /**
    `DefaultChain` sends requests for port 80 to 127.0.0.1:8080, for port
    443 to 127.0.0.1:8443, and for any other port to that port on 127.0.0.1.
   */
  lemma DefaultChainRoutes(d: AddrSpec)
    ensures Rewrite(Live, DefaultChain, Some(d)) ==
      Some(AddrSpec("", Loopback, if d.port == 80 then 8080 else if d.port == 443 then 8443 else d.port))
  {
    var m80, m443, redirect := PortMap(80, 8080), PortMap(443, 8443), Redirect(AddrSpec("", Loopback, 0));
    var a1 := Rewrite(Live, m80, Some(d));
    var a2 := Rewrite(Live, m443, a1);
    assert Fold(Live, [m80, m443, redirect], Some(d)) == Fold(Live, [m443, redirect], a1);
    assert Fold(Live, [m443, redirect], a1) == Fold(Live, [redirect], a2);
    assert Fold(Live, [redirect], a2) == Fold(Live, [], Rewrite(Live, redirect, a2));
  }

  /** End to end: with the default flags, requests for ports 80, 443 and 22 land on 127.0.0.1:8080, :8443 and :22. */
  lemma DefaultFlagsRoute(p: Parsers, fqdn: string, ip: IP)
    requires p.parseIP("127.0.0.1") == Some(Loopback)
    requires p.parseAddrSpec("127.0.0.1:0") == Some(AddrSpec("", Loopback, 0))
    ensures ProxyConfig(p, DefaultFlags).Ok?
    ensures var rw := ProxyConfig(p, DefaultFlags).value.rewriter;
      && Rewrite(Live, rw, Some(AddrSpec(fqdn, ip, 80))) == Some(AddrSpec("", Loopback, 8080))
      && Rewrite(Live, rw, Some(AddrSpec(fqdn, ip, 443))) == Some(AddrSpec("", Loopback, 8443))
      && Rewrite(Live, rw, Some(AddrSpec(fqdn, ip, 22))) == Some(AddrSpec("", Loopback, 22))
  {
    DefaultFlagsConfig(p);
    DefaultChainRoutes(AddrSpec(fqdn, ip, 80));
    DefaultChainRoutes(AddrSpec(fqdn, ip, 443));
    DefaultChainRoutes(AddrSpec(fqdn, ip, 22));
  }
}

=== FILE: lifecycle.dfy ===
/**
  Whole runs of the socks server: the polling loop of `Shutdown`, and any
  interleaving of the steps of `SocksServer` taken in some sequential order.
 */
module Lifecycle {
  import opened Wrappers
  import opened Net
  import opened PackedState
  import opened SocksServer
  import opened PollInterval

  /**
    One round of the `Shutdown` loop: the clock at its sweep, the context
    as the `select` finds it (Done means the select took the context's
    branch), and the random number behind the next wait's jitter.
   */
  datatype Poll = Poll(now: Int64, ctx: Context, rnd: nat)

  datatype ShutdownStatus =
    | Drained(err: Option<Error>)  // the tracker emptied: Shutdown returns the listener's error
    | Abandoned(cause: Error)      // the context ended first: Shutdown returns ctx.Err()
    | Polling                      // the rounds ran out with Shutdown still waiting

  /**
    `Shutdown`, round by round: mark the server and close its listener,
    then sweep idle connections until the tracker is empty or the context
    ends, waiting between sweeps for the intervals of `nextPollInterval`.
    The waits are returned in `intervals`; the first is drawn when the
    listener is closed, before the first sweep.
   */
  method Shutdown(s: Server, closeResult: Option<Error>, firstRnd: nat, polls: seq<Poll>)
    returns (r: Result<(Server, ShutdownStatus)>, intervals: seq<int>)
    ensures r.Err? == false
    ensures r.Ok? ==> r.value.0.inShutdown && r.value.0.listenerClosed
    ensures r.Ok? && r.value.1.Drained? ==>
      r.value.0.tracked == {} && r.value.1.err == r.value.0.listenerErr
    ensures r.Ok? && r.value.1.Drained? && s.listenerClosed ==> r.value.1.err == s.listenerErr
    ensures r.Ok? && r.value.1.Abandoned? ==> exists i | 0 <= i < |polls| :: polls[i].ctx == Done(r.value.1.cause)
    ensures r.Ok? ==> r.value.0.tracked <= s.tracked
    ensures r.Ok? ==> forall j | 0 <= j < |polls| && AllIdleNew(s, polls[j].now) ::
      (forall k | 0 <= k < j :: polls[k].ctx.Live?) ==> r.value.1.Drained?
    ensures |intervals| <= |polls| + 1
    ensures r.Ok? ==> 0 < |intervals|
    ensures forall k | 0 <= k < |intervals| ::
      BaseAfter(k) <= intervals[k] < BaseAfter(k) + BaseAfter(k) / 10
  {
    intervals := [];
    var begun := BeginShutdown(s, closeResult);
    if begun.Panic? {
      return Panic(begun.reason), intervals;
    }
    var srv, err := begun.value.0, begun.value.1;
    NextBase(0, firstRnd);
    var first := NextPollInterval(Millisecond, firstRnd);
    var base := first.1;
    intervals := [first.0];
    var i := 0;
    while i < |polls|
      invariant 0 <= i <= |polls|
      invariant srv.inShutdown && srv.listenerClosed && err == srv.listenerErr
      invariant s.listenerClosed ==> err == s.listenerErr
      invariant srv.tracked <= s.tracked && srv.states == s.states
      invariant i == 0 ==> srv.tracked == s.tracked
      invariant forall j | 0 <= j < i :: !AllIdleNew(s, polls[j].now) && polls[j].ctx.Live?
      invariant |intervals| == i + 1 && base == BaseAfter(i + 1)
      invariant forall k | 0 <= k < |intervals| ::
        BaseAfter(k) <= intervals[k] < BaseAfter(k) + BaseAfter(k) / 10
    {
      var swept := CloseIdleConns(srv, polls[i].now);
      if swept.Panic? {
        return Panic(swept.reason), intervals;
      }
      if AllIdleNew(s, polls[i].now) {
        IdleStaysIdle(s, srv, polls[i].now);
        SweepDrainsIdle(srv, polls[i].now);
      }
      srv := swept.value.0;
      if swept.value.1 {
        return Ok((srv, Drained(err))), intervals;
      }
      if polls[i].ctx.Done? {
        return Ok((srv, Abandoned(polls[i].ctx.reason))), intervals;
      }
      NextBase(i + 1, polls[i].rnd);
      var next := NextPollInterval(base, polls[i].rnd);
      base := next.1;
      intervals := intervals + [next.0];
      i := i + 1;
    }
    r := Ok((srv, Polling));
  }

  /** Forgetting connections, with every state word kept, keeps the rest idle. */
  lemma IdleStaysIdle(s: Server, srv: Server, now: Int64)
    requires srv.tracked <= s.tracked && srv.states == s.states
    requires AllIdleNew(s, now)
    ensures AllIdleNew(srv, now)
  {
    assert forall c :: PackedOf(srv, c) == PackedOf(s, c);
  }

  // ---------------------------------------------------------------------
  // Interleavings
  // ---------------------------------------------------------------------

  /** The server a step leaves, dropping the value the step returns. */
  function ServerOf<T>(r: Result<(Server, T)>): (r': Result<Server>)
    ensures r'.Ok? <==> r.Ok?
    ensures r.Ok? ==> r'.value == r.value.0
  {
    match r
    case Ok((s, _)) => Ok(s)
    case Err(e) => Err(e)
    case Panic(why) => Panic(why)
  }

  /** One step of some goroutine; return values are dropped. */
  datatype Op =
    | Serve(l: ListenerId, closeResult: Option<Error>)       // entering Serve(l)
    | Accept(c: ConnId, now: Int64)                          // the accept loop wraps a connection
    | AcceptError(err: Error, closeResult: Option<Error>)    // the accept loop returns
    | ReadWrite(c: ConnId, now: Int64)                       // conn.Read or conn.Write
    | CloseConn(c: ConnId, now: Int64)                       // conn.Close
    | Sweep(now: Int64)                                      // one closeIdleConns of Shutdown
    | StartShutdown(closeResult: Option<Error>)              // Shutdown up to its loop
    | HardClose(closeResult: Option<Error>)                  // Close

  function Step(s: Server, op: Op): Result<Server> {
    match op
    case Serve(l, cr) => ServerOf(ServeEnter(s, l, cr))
    case Accept(c, now) => Accepted(s, c, now)
    case AcceptError(e, cr) => ServerOf(AcceptFailed(s, e, cr))
    case ReadWrite(c, now) => SetState(s, c, StateActive, now)
    case CloseConn(c, now) => SetState(s, c, StateClosed, now)
    case Sweep(now) => ServerOf(SweepIdle(s, now))
    case StartShutdown(cr) => ServerOf(BeginShutdown(s, cr))
    case HardClose(cr) => ServerOf(Close(s, cr))
  }

  /** The steps in order; a panic ends the run. */
  function Run(s: Server, ops: seq<Op>): Result<Server>
    decreases |ops|
  {
    if ops == [] then Ok(s)
    else match Step(s, ops[0])
      case Ok(s1) => Run(s1, ops[1..])
      case Err(e) => Err(e)
      case Panic(w) => Panic(w)
  }

  /** The listener's Close has run exactly when the Once is done, and at most once. */
  predicate OnceHolds(s: Server) {
    s.listenerCloses == if s.listenerClosed then 1 else 0
  }

  /** One step: shutdown is never undone, the Once never re-runs, and its error never changes. */
  lemma StepMonotone(s: Server, op: Op)
    requires Step(s, op).Ok?
    ensures var s1 := Step(s, op).value;
      && (s.inShutdown ==> s1.inShutdown)
      && (op.StartShutdown? || op.HardClose? ==> s1.inShutdown)
      && (s.listenerClosed ==> s1.listenerClosed && s1.listenerErr == s.listenerErr)
      && (OnceHolds(s) ==> OnceHolds(s1))
  {
  }

  /**
    Over any run: once shutdown has begun (before the run or by a Shutdown
    or Close in it) it stays begun, the listener's Close never runs a second
    time, and its cached error never changes.
   */
  lemma {:induction false} RunMonotone(s: Server, ops: seq<Op>)
    requires Run(s, ops).Ok?
    ensures var s1 := Run(s, ops).value;
      && ((s.inShutdown || exists i | 0 <= i < |ops| :: ops[i].StartShutdown? || ops[i].HardClose?) ==> s1.inShutdown)
      && (s.listenerClosed ==> s1.listenerClosed && s1.listenerErr == s.listenerErr)
      && (OnceHolds(s) ==> OnceHolds(s1))
    decreases |ops|
  {
    if ops != [] {
      StepMonotone(s, ops[0]);
      var s1 := Step(s, ops[0]).value;
      RunMonotone(s1, ops[1..]);
      assert forall i | 1 <= i < |ops| :: ops[i] == ops[1..][i - 1];
    }
  }

  /** From a fresh server, the listener is closed at most once in any run. */
  lemma ListenerClosedAtMostOnce(ops: seq<Op>)
    requires Run(Initial, ops).Ok?
    ensures Run(Initial, ops).value.listenerCloses <= 1
  {
    RunMonotone(Initial, ops);
  }

  /**
    After a run in which Shutdown or Close was called, a Serve that starts
    or whose accept fails returns ErrServerClosed.
   */
  lemma ServeAfterShutdown(s: Server, ops: seq<Op>, i: nat, l: ListenerId, err: Error, cr: Option<Error>)
    requires Run(s, ops).Ok?
    requires i < |ops| && (ops[i].StartShutdown? || ops[i].HardClose?)
    ensures var s1 := Run(s, ops).value;
      && (ServeEnter(s1, l, cr).Ok? ==> ServeEnter(s1, l, cr).value.1 == Some(ServerClosed))
      && (AcceptFailed(s1, err, cr).Ok? ==> AcceptFailed(s1, err, cr).value.1 == ServerClosed)
  {
    RunMonotone(s, ops);
  }
}

=== FILE: net.dfy ===
/**
  The value types the proxy passes around: IP addresses, SOCKS destination
  addresses (`statute.AddrSpec`), Go's fixed-width integers, and the two
  string helpers from Go's standard library the core relies on
  (`strconv.Atoi` and `net.JoinHostPort`). The address parsers
  (`net.ParseIP`, `statute.ParseAddrSpec`) are not defined here: they are
  passed in as a `Parsers` value.
 */
module Net {
  import opened Wrappers

  newtype byte = x: int | 0 <= x < 256

  const MinInt64: int := -0x8000_0000_0000_0000
  const MaxInt64: int := 0x7fff_ffff_ffff_ffff

  /** Go's `int64` (and `int` on a 64-bit platform). */
  type Int64 = x: int | MinInt64 <= x <= MaxInt64

  /** Go's `uint64`. */
  type Uint64 = x: int | 0 <= x < 0x1_0000_0000_0000_0000

  /** A `net.IP`: a byte slice; the nil IP is the empty sequence. */
  type IP = seq<byte>

  const NilIP: IP := []

  /** `net.IPv4(a, b, c, d)`: the 16-byte IPv4-in-IPv6 form. */
  function IPv4(a: byte, b: byte, c: byte, d: byte): (ip: IP)
    ensures |ip| == 16 && ip[12..] == [a, b, c, d]
  {
    [0, 0, 0, 0, 0, 0, 0, 0, 0, 0, 0xff, 0xff, a, b, c, d]
  }

  const Loopback: IP := IPv4(127, 0, 0, 1)

  /** `statute.AddrSpec`: a SOCKS destination, by name or by IP, and a port. */
  datatype AddrSpec = AddrSpec(fqdn: string, ip: IP, port: int)

  /**
    The parsers the core calls but does not implement: `net.ParseIP`
    (None where Go returns a nil IP) and `statute.ParseAddrSpec` (None
    where Go returns an error).
   */
  datatype Parsers = Parsers(parseIP: string -> Option<IP>, parseAddrSpec: string -> Option<AddrSpec>)

  /** `net.JoinHostPort`: a host containing a colon is taken to be IPv6 and bracketed. */
  function JoinHostPort(host: string, port: string): (hp: string)
    ensures ':' !in host ==> hp == host + ":" + port
    ensures ':' in host ==> hp == "[" + host + "]:" + port
  {
    if ':' in host then "[" + host + "]:" + port else host + ":" + port
  }

  // ---------------------------------------------------------------------
  // strconv.Atoi, with its error result dropped as the callers drop it
  // ---------------------------------------------------------------------

  predicate IsDigit(c: char) {
    '0' <= c <= '9'
  }

  function Digit(c: char): nat
    requires IsDigit(c)
  {
    c as int - '0' as int
  }

  predicate AllDigits(s: string) {
    forall i :: 0 <= i < |s| ==> IsDigit(s[i])
  }

  /** The digits of `s` once an optional leading sign is removed. */
  function Unsigned(s: string): string {
    if |s| > 0 && (s[0] == '+' || s[0] == '-') then s[1..] else s
  }

  predicate Negative(s: string) {
    |s| > 0 && s[0] == '-'
  }

  /** What `strconv.Atoi` accepts without a syntax error. */
  predicate IsDecimal(s: string) {
    |Unsigned(s)| > 0 && AllDigits(Unsigned(s))
  }

  /** The value of a digit string, most significant digit first. */
  function DigitsValue(s: string): nat
    requires AllDigits(s)
  {
    if s == [] then 0
    else DigitsValue(s[..|s| - 1]) * 10 + Digit(s[|s| - 1])
  }

  /** The longest run of digits `s` starts with. */
  function LeadingDigits(s: string): (d: string)
    ensures |d| <= |s| && d == s[..|d|] && AllDigits(d)
    ensures |d| < |s| ==> !IsDigit(s[|d|])
    ensures AllDigits(s) ==> d == s
  {
    if s == [] || !IsDigit(s[0]) then []
    else [s[0]] + LeadingDigits(s[1..])
  }

  /**
    The digits after the sign already exceed `uint64` before any character
    that is not a digit, so `strconv.ParseUint` stops there with a range
    error and never sees the rest.
   */
  predicate Overflows(s: string) {
    DigitsValue(LeadingDigits(Unsigned(s))) > MaxUint64
  }

  function Clamp64(n: int): Int64 {
    if n < MinInt64 then MinInt64 else if n > MaxInt64 then MaxInt64 else n
  }

  const MaxUint64: int := 0xffff_ffff_ffff_ffff

  /** `strconv.ParseUint`'s cutoff for base 10: the least `n` with `n * 10 > MaxUint64`. */
  const Cutoff10: int := MaxUint64 / 10 + 1

  /** The outcome of `strconv.ParseUint(s, 10, 64)`. */
  datatype UintScan = SyntaxError | RangeError | Scanned(n: Uint64)

  /**
    The digit loop of `strconv.ParseUint` in base 10, from the value `acc`
    read so far: a non-digit is a syntax error, a digit that takes the value
    past `MaxUint64` is a range error, and the loop ends at the first of
    either.
   */
  function ScanDigits(s: string, acc: Uint64): UintScan
    decreases |s|
  {
    if s == [] then Scanned(acc)
    else if !IsDigit(s[0]) then SyntaxError
    else if acc >= Cutoff10 then RangeError
    else if acc * 10 + Digit(s[0]) > MaxUint64 then RangeError
    else ScanDigits(s[1..], acc * 10 + Digit(s[0]))
  }

  /** `strconv.ParseUint(s, 10, 64)`: the empty string is a syntax error. */
  function ParseUint(s: string): UintScan {
    if s == [] then SyntaxError else ScanDigits(s, 0)
  }

  /**
    `strconv.ParseInt(s, 10, 64)` with its error dropped: a leading sign,
    then `ParseUint`; a syntax error gives 0, and a range error, or a
    magnitude beyond `int64`, gives the bound on the sign's side.
   */
  function ParseInt(s: string): (n: Int64)
    ensures Overflows(s) ==> n == if Negative(s) then MinInt64 else MaxInt64
    ensures !Overflows(s) && !IsDecimal(s) ==> n == 0
    ensures IsDecimal(s) ==>
      n == Clamp64(if Negative(s) then 0 - DigitsValue(Unsigned(s)) as int else DigitsValue(Unsigned(s)))
  {
    if s == [] then 0
    else
      var neg := s[0] == '-';
      var scan := ParseUint(Unsigned(s));
      ScanRead(Unsigned(s));
      if scan.SyntaxError? then 0
      else
        var un: int := if scan.RangeError? then MaxUint64 else scan.n;
        if !neg && un >= -MinInt64 then MaxInt64
        else if neg && un > -MinInt64 then MinInt64
        else if neg then -un
        else un
  }

  /**
    The integer `strconv.Atoi(s)` returns when its error is ignored. Strings
    shorter than 19 bytes take a fast path that cannot overflow; the rest go
    through `ParseInt`. Either way: 0 on a syntax error, unless the digits
    overflowed before it; the bound on the sign's side on a range error;
    the decimal value otherwise.
   */
  function Atoi(s: string): (n: Int64)
    ensures Overflows(s) ==> n == if Negative(s) then MinInt64 else MaxInt64
    ensures !Overflows(s) && !IsDecimal(s) ==> n == 0
    ensures IsDecimal(s) ==>
      n == Clamp64(if Negative(s) then 0 - DigitsValue(Unsigned(s)) as int else DigitsValue(Unsigned(s)))
    ensures IsDecimal(s) && Negative(s) ==> n <= 0
    ensures IsDecimal(s) && !Negative(s) ==> n >= 0
  {
    if 0 < |s| < 19 then
      var t := Unsigned(s);
      ShortDigitsFit(LeadingDigits(t));
      if |t| < 1 then 0
      else if !AllDigits(t) then 0
      else if s[0] == '-' then 0 - DigitsValue(t) as int else DigitsValue(t)
    else ParseInt(s)
  }

  // ---------------------------------------------------------------------
  // Why the scan reads what the digits spell
  // ---------------------------------------------------------------------

  function Pow10(k: nat): (p: nat)
    ensures p > 0
  {
    if k == 0 then 1 else 10 * Pow10(k - 1)
  }

  /** `k` digits spell less than `10^k`. */
  lemma {:induction false} DigitsValueBelow(t: string)
    requires AllDigits(t)
    ensures DigitsValue(t) < Pow10(|t|)
  {
    if t != [] {
      DigitsValueBelow(t[..|t| - 1]);
    }
  }

  /** At most 18 digits fit in an `int64`, which is why `Atoi`'s fast path needs no range check. */
  lemma {:induction false} ShortDigitsFit(t: string)
    requires AllDigits(t) && |t| <= 18
    ensures DigitsValue(t) < 1_000_000_000_000_000_000
  {
    DigitsValueBelow(t);
    Pow10Monotone(|t|, 18);
    assert Pow10(6) == 1_000_000;
    assert Pow10(12) == 1_000_000 * Pow10(6) by { Pow10Add(6, 6); }
    assert Pow10(18) == 1_000_000 * Pow10(12) by { Pow10Add(6, 12); }
  }

  lemma {:induction false} Pow10Add(j: nat, k: nat)
    ensures Pow10(j + k) == Pow10(j) * Pow10(k)
  {
    if j > 0 {
      Pow10Add(j - 1, k);
    }
  }

  lemma {:induction false} Pow10Monotone(j: nat, k: nat)
    requires j <= k
    ensures Pow10(j) <= Pow10(k)
  {
    if j < k {
      Pow10Monotone(j, k - 1);
    }
  }

  /** Appending digits never makes the value smaller. */
  lemma {:induction false} DigitsValueGrows(p: string, q: string)
    requires AllDigits(p + q)
    ensures AllDigits(p) && DigitsValue(p) <= DigitsValue(p + q)
  {
    assert AllDigits(p) by {
      assert forall i | 0 <= i < |p| :: p[i] == (p + q)[i];
    }
    if q != [] {
      var q' := q[..|q| - 1];
      assert (p + q)[..|p + q| - 1] == p + q';
      assert q[|q| - 1] == (p + q)[|p + q| - 1];
      assert DigitsValue(p + q) == DigitsValue(p + q') * 10 + Digit(q[|q| - 1]);
      DigitsValueGrows(p, q');
    } else {
      assert p + q == p;
    }
  }

  /**
    `ScanDigits` after reading the digits `p` answers as the leading digits
    of the rest decide: a range error once `p` and those digits exceed
    `MaxUint64`, their value when they are the whole rest, and a syntax
    error otherwise.
   */
  lemma {:induction false} ScanDigitsReads(p: string, s: string)
    requires AllDigits(p) && DigitsValue(p) <= MaxUint64
    ensures AllDigits(p + LeadingDigits(s))
    ensures DigitsValue(p + LeadingDigits(s)) > MaxUint64 ==> ScanDigits(s, DigitsValue(p)) == RangeError
    ensures DigitsValue(p + LeadingDigits(s)) <= MaxUint64 && LeadingDigits(s) == s ==>
      ScanDigits(s, DigitsValue(p)) == Scanned(DigitsValue(p + s))
    ensures DigitsValue(p + LeadingDigits(s)) <= MaxUint64 && LeadingDigits(s) != s ==>
      ScanDigits(s, DigitsValue(p)) == SyntaxError
    decreases |s|
  {
    if s == [] || !IsDigit(s[0]) {
      assert LeadingDigits(s) == [];
      assert p + LeadingDigits(s) == p;
    } else {
      var acc, p', d1 := DigitsValue(p), p + [s[0]], LeadingDigits(s[1..]);
      DigitsValueSnoc(p, s[0]);
      ScanDigitsStep(s, acc);
      LeadingDigitsStep(p, s);
      ConcatDigits(p', d1);
      DigitsValueGrows(p', d1);
      if DigitsValue(p') <= MaxUint64 {
        ScanDigitsReads(p', s[1..]);
      }
    }
  }

  /** One digit of the scan: the cutoff test only ever catches what the overflow test would. */
  lemma {:induction false} ScanDigitsStep(s: string, acc: Uint64)
    requires s != [] && IsDigit(s[0])
    ensures acc * 10 + Digit(s[0]) > MaxUint64 ==> ScanDigits(s, acc) == RangeError
    ensures acc * 10 + Digit(s[0]) <= MaxUint64 ==> ScanDigits(s, acc) == ScanDigits(s[1..], acc * 10 + Digit(s[0]))
  {
    if acc >= Cutoff10 {
      assert acc * 10 >= Cutoff10 * 10;
    }
  }

  /** The leading digits of a string that starts with a digit. */
  lemma {:induction false} LeadingDigitsStep(p: string, s: string)
    requires s != [] && IsDigit(s[0])
    ensures p + LeadingDigits(s) == (p + [s[0]]) + LeadingDigits(s[1..])
    ensures p + s == (p + [s[0]]) + s[1..]
    ensures LeadingDigits(s) == s <==> LeadingDigits(s[1..]) == s[1..]
  {
    var d, d1 := LeadingDigits(s), LeadingDigits(s[1..]);
    assert d == [s[0]] + d1;
    assert p + d == (p + [s[0]]) + d1;
    assert s == [s[0]] + s[1..];
    assert d == s <==> |d| == |s|;
    assert d1 == s[1..] <==> |d1| == |s[1..]|;
  }

  lemma {:induction false} ConcatDigits(p: string, q: string)
    requires AllDigits(p) && AllDigits(q)
    ensures AllDigits(p + q)
  {
    assert forall i | 0 <= i < |p + q| :: (p + q)[i] == if i < |p| then p[i] else q[i - |p|];
  }

  /** One more digit multiplies the value read so far by ten and adds the digit. */
  lemma {:induction false} DigitsValueSnoc(p: string, c: char)
    requires AllDigits(p) && IsDigit(c)
    ensures AllDigits(p + [c]) && DigitsValue(p + [c]) == DigitsValue(p) * 10 + Digit(c)
  {
    ConcatDigits(p, [c]);
    assert (p + [c])[..|p|] == p;
  }

  /** `ParseUint` of an unsigned string, in terms of its leading digits. */
  lemma {:induction false} ScanRead(t: string)
    ensures ParseUint(t) ==
      if DigitsValue(LeadingDigits(t)) > MaxUint64 then RangeError
      else if |t| > 0 && LeadingDigits(t) == t then Scanned(DigitsValue(t))
      else SyntaxError
  {
    if t != [] {
      ScanDigitsReads([], t);
      assert [] + LeadingDigits(t) == LeadingDigits(t);
    }
  }

  /**
    Digits followed by a non-digit: 0 when the digits fit in `uint64`, as
    the syntax error is reached first, and the bound on the sign's side when
    they do not, as the range error is.
   */
  lemma AtoiDigitsThenJunk(d: string, rest: string)
    requires |d| > 0 && AllDigits(d) && rest != [] && !IsDigit(rest[0])
    ensures DigitsValue(d) <= MaxUint64 ==> Atoi(d + rest) == 0 && Atoi("-" + d + rest) == 0
    ensures DigitsValue(d) > MaxUint64 ==> Atoi(d + rest) == MaxInt64 && Atoi("-" + d + rest) == MinInt64
  {
    DigitsThenJunk(d, rest);
  }

  /** How the sign, the leading run and the syntax check see digits followed by a non-digit. */
  lemma DigitsThenJunk(d: string, rest: string)
    requires |d| > 0 && AllDigits(d) && rest != [] && !IsDigit(rest[0])
    ensures !Negative(d + rest) && Negative("-" + d + rest)
    ensures !IsDecimal(d + rest) && !IsDecimal("-" + d + rest)
    ensures Overflows(d + rest) == Overflows("-" + d + rest) == (DigitsValue(d) > MaxUint64)
  {
    SignedDigits(d, rest);
    var s := d + rest;
    assert LeadingDigits(s) == d by {
      assert s[..|d|] == d;
      assert s[|d|] == rest[0];
      LeadingRun(s, |d|);
    }
    assert !AllDigits(s) by {
      assert s[|d|] == rest[0];
    }
  }

  /** The sign `Unsigned` strips from digits, with or without a minus in front. */
  lemma SignedDigits(d: string, rest: string)
    requires |d| > 0 && IsDigit(d[0])
    ensures Unsigned(d + rest) == d + rest && Unsigned("-" + d + rest) == d + rest
    ensures !Negative(d + rest) && Negative("-" + d + rest)
  {
    assert ("-" + d + rest)[1..] == d + rest;
  }

  /** A run of `k` digits followed by a non-digit is the leading run. */
  lemma LeadingRun(s: string, k: nat)
    requires k < |s| && AllDigits(s[..k]) && !IsDigit(s[k])
    ensures LeadingDigits(s) == s[..k]
  {
  }

  /** "0" reads as zero and does not overflow. */
  lemma ZeroReadsZero()
    ensures !Overflows("0") && Atoi("0") == 0
  {
    assert "0"[..0] == [];
    assert DigitsValue("0") == 0;
  }

  /** The shortest decimal spelling of `n`, as `strconv.Itoa` writes it. */
  function Decimal(n: nat): (s: string)
    ensures |s| > 0 && AllDigits(s)
  {
    if n < 10 then [('0' as int + n) as char]
    else Decimal(n / 10) + [('0' as int + n % 10) as char]
  }

  /** Reading back a decimal spelling gives the number that was spelled. */
  lemma {:induction false} DigitsValueDecimal(n: nat)
    ensures DigitsValue(Decimal(n)) == n
  {
    var s := Decimal(n);
    if n >= 10 {
      assert s[..|s| - 1] == Decimal(n / 10);
      DigitsValueDecimal(n / 10);
    }
  }

  /** `strconv.Atoi` inverts `strconv.Itoa` on every non-negative `int64`. */
  lemma AtoiDecimal(n: nat)
    requires n <= MaxInt64
    ensures Atoi(Decimal(n)) == n
  {
    var s := Decimal(n);
    assert Unsigned(s) == s by {
      assert IsDigit(s[0]);
    }
    DigitsValueDecimal(n);
  }
}

=== FILE: packed_state.dfy ===
/**
  The per-connection state word of socks.go: a connection state and the Unix
  time of its last transition, packed as `uint64(unix<<8) | uint64(state)`.
 */
module PackedState {
  import opened Net

  /** `connState` is a Go `int`; these are its three named values. */
  const StateNew: int := 0
  const StateActive: int := 1
  const StateClosed: int := 2

  const TwoTo56: int := 0x100_0000_0000_0000
  const TwoTo64: int := 0x1_0000_0000_0000_0000

  /** The state fits the low byte; anything else is the panic of `setState`. */
  predicate Packable(state: int) {
    0 <= state <= 0xff
  }

  /**
    `uint64(unix<<8) | uint64(state)`: the shift wraps in `int64` and the
    conversion reinterprets the bits, which is `unix * 256` modulo 2^64; the
    low byte of that is zero, so the `|` adds the state.
   */
  function Pack(state: int, unix: Int64): (p: Uint64)
    requires Packable(state)
    ensures p % 256 == state
  {
    ShiftedIsAligned(unix);
    (unix * 256) % TwoTo64 + state
  }

  /** `getState`: `(state(p & 0xff), int64(p >> 8))`. */
  function Unpack(p: Uint64): (su: (int, Int64))
    ensures Packable(su.0) && 0 <= su.1 < TwoTo56
  {
    (p % 256, p / 256)
  }

  lemma ShiftedIsAligned(unix: int)
    ensures (unix * 256) % TwoTo64 == (unix % TwoTo56) * 256
  {
    var q := unix / TwoTo56;
    var m := unix % TwoTo56;
    assert unix * 256 == q * TwoTo64 + m * 256;
  }

  /** Reading back a packed word gives the state and the time modulo 2^56. */
  lemma UnpackPack(state: int, unix: Int64)
    requires Packable(state)
    ensures Unpack(Pack(state, unix)) == (state, unix % TwoTo56)
  {
    ShiftedIsAligned(unix);
    var m := unix % TwoTo56;
    assert Pack(state, unix) == m * 256 + state;
    assert (m * 256 + state) / 256 == m;
  }

  /** For times in [0, 2^56) the packing is lossless. */
  lemma PackRoundTrip(state: int, unix: Int64)
    requires Packable(state)
    requires 0 <= unix < TwoTo56
    ensures Unpack(Pack(state, unix)) == (state, unix)
  {
    UnpackPack(state, unix);
  }
}

=== FILE: poll_interval.dfy ===
/**
  The back-off of `Shutdown` in socks.go: the poll interval starts at one
  millisecond, doubles after every poll, is clamped to 500ms, and each wait
  adds up to 10% of random jitter. Durations are Go `time.Duration`s, in
  nanoseconds. The jitter source `rand.Intn(n)` is a parameter: any natural
  number, reduced into [0, n).
 */
module PollInterval {

  const Millisecond: int := 1_000_000
  const ShutdownPollIntervalMax: int := 500 * Millisecond

  /**
    One call of the `nextPollInterval` closure: the interval to wait now, and
    the base for the next call. `rand.Intn` panics on a bound of 0, so the
    base must be at least 10ns; it starts at 1ms and never shrinks.
   */
  function NextPollInterval(base: int, rnd: nat): (r: (int, int))
    requires base >= 10
    ensures base <= r.0 < base + base / 10
    ensures r.1 <= ShutdownPollIntervalMax
    ensures r.1 == 2 * base || r.1 == ShutdownPollIntervalMax
    ensures 2 * base <= ShutdownPollIntervalMax ==> r.1 == 2 * base
    ensures base <= ShutdownPollIntervalMax ==> base <= r.1
  {
    var interval := base + rnd % (base / 10);
    var next := if base * 2 > ShutdownPollIntervalMax then ShutdownPollIntervalMax else base * 2;
    (interval, next)
  }

  function Pow2(k: nat): (r: nat)
    ensures r >= 1
  {
    if k == 0 then 1 else 2 * Pow2(k - 1)
  }

  /** The closed form of the base after `k` calls: 1ms, 2ms, ..., 256ms, then 500ms for ever. */
  function BaseAfter(k: nat): int {
    if k >= 9 then ShutdownPollIntervalMax else Pow2(k) * Millisecond
  }

  lemma {:induction false} Pow2Monotone(j: nat, k: nat)
    requires j <= k
    ensures Pow2(j) <= Pow2(k)
  {
    if j < k {
      Pow2Monotone(j, k - 1);
    }
  }

  lemma Pow2Eight()
    ensures Pow2(7) == 128 && Pow2(8) == 256
  {
    assert Pow2(3) == 8;
    assert Pow2(6) == 64;
  }

  /** The base after `k + 1` calls is what one call makes of the base after `k`. */
  lemma NextBase(k: nat, rnd: nat)
    ensures BaseAfter(k) >= Millisecond
    ensures NextPollInterval(BaseAfter(k), rnd).1 == BaseAfter(k + 1)
  {
    Pow2Eight();
    if k < 8 {
      Pow2Monotone(k, 7);
      assert Pow2(k + 1) == 2 * Pow2(k);
      assert BaseAfter(k) * 2 == Pow2(k + 1) * Millisecond <= 256 * Millisecond;
    } else if k == 8 {
      assert BaseAfter(k) == 256 * Millisecond;
    }
  }

  /** Every wait of `Shutdown` lies between 1ms and 550ms. */
  lemma IntervalBounds(k: nat, rnd: nat)
    ensures var iv := NextPollInterval(BaseAfter(k), rnd).0;
      Millisecond <= iv < ShutdownPollIntervalMax + ShutdownPollIntervalMax / 10
  {
    NextBase(k, rnd);
    Pow2Eight();
    if k < 9 {
      Pow2Monotone(k, 8);
    }
  }
}

=== FILE: resolving.dfy ===
/**
  The name resolver of socks-proxy (`withResponse`): every name resolves to
  one configured IP, and nothing is looked up.
 */
module Resolving {
  import opened Wrappers
  import opened Net

  /** `ResolveTo(ip)`: the resolver answering `ip`. */
  datatype Resolver = WithResponse(answer: IP)

  /** The package variable `LoopbackResolver`, `ResolveTo(net.IPv4(127, 0, 0, 1))`. */
  const LoopbackResolver: Resolver := WithResponse(Loopback)

  /**
    `Resolve(ctx, name)`, keeping the returned IP and error: an error exactly
    when the context is done, and then the context's own error and a nil IP.
   */
  function Resolve(ctx: Context, r: Resolver, name: string): (res: (IP, Option<Error>))
    ensures res.1.Some? <==> ctx.Done?
    ensures ctx.Done? ==> res == (NilIP, Some(ctx.reason))
  {
    if ctx.Done? then (NilIP, Some(ctx.reason))
    else (r.answer, None)
  }

  /** A live resolver answers its configured IP without an error. */
  lemma ResolveLive(r: Resolver, name: string)
    ensures Resolve(Live, r, name) == (r.answer, None)
  {
  }

  /** The queried name never matters. */
  lemma ResolveIgnoresName(ctx: Context, r: Resolver, n1: string, n2: string)
    ensures Resolve(ctx, r, n1) == Resolve(ctx, r, n2)
  {
  }

  /** `LoopbackResolver` answers 127.0.0.1 for every name on a live context. */
  lemma LoopbackResolverAnswers(name: string)
    ensures Resolve(Live, LoopbackResolver, name) == (IPv4(127, 0, 0, 1), None)
  {
  }
}

=== FILE: rewriter_laws.dfy ===
/**
  What each rewriter promises about the address it returns, and the laws of
  chaining them.
 */
module RewriterLaws {
  import opened Wrappers
  import opened Net
  import opened Rewriting

  // ---------------------------------------------------------------------
  // portMapper
  // ---------------------------------------------------------------------

  /** A cancelled context leaves the destination alone, nil or not. */
  lemma PortMapCancelled(ctx: Context, from: int, to: int, dest: Option<AddrSpec>)
    requires ctx.Done?
    ensures Rewrite(ctx, PortMap(from, to), dest) == dest
  {
  }

  /** A mapper for one port does not touch a request for another port. */
  lemma PortMapSkipsOtherPorts(from: int, to: int, d: AddrSpec)
    requires from > 0 && d.port != from
    ensures Rewrite(Live, PortMap(from, to), Some(d)) == Some(d)
  {
  }

  /** A matching (or wildcard) request gets the target port and keeps its host. */
  lemma PortMapSetsPort(from: int, to: int, d: AddrSpec)
    requires from <= 0 || d.port == from
    requires to > 0
    ensures Rewrite(Live, PortMap(from, to), Some(d)) == Some(AddrSpec(d.fqdn, d.ip, to))
  {
  }

  /** A target port of 0 (or less) disables the mapping, even on a match. */
  lemma PortMapDisabled(ctx: Context, from: int, to: int, d: AddrSpec)
    requires to <= 0
    ensures Rewrite(ctx, PortMap(from, to), Some(d)) == Some(d)
  {
  }

  /**
    A mapper only ever changes the port, and changes it exactly when the
    request matches, the mapping is enabled and the port differs.
   */
  lemma PortMapOnlyChangesPort(from: int, to: int, d: AddrSpec)
    ensures var r := Rewrite(Live, PortMap(from, to), Some(d)).value;
      && r.fqdn == d.fqdn && r.ip == d.ip
      && (r.port != d.port <==> (from <= 0 || d.port == from) && to > 0 && to != d.port)
  {
  }

  /** Mapping a port twice is mapping it once. */
  lemma PortMapIdempotent(from: int, to: int, d: AddrSpec)
    ensures var once := Rewrite(Live, PortMap(from, to), Some(d));
      Rewrite(Live, PortMap(from, to), once) == once
  {
  }

  /** `MapPort("0", "0")` is the no-op rewriter on every context and destination. */
  lemma MapPortZeroZero(ctx: Context, dest: Option<AddrSpec>)
    requires Callable(ctx, dest)
    ensures Rewrite(ctx, MapPort("0", "0"), dest) == dest
  {
  }

  /**
    An unparsable `from` whose digits do not overflow first becomes the
    wildcard 0: every request gets the target port when that port is
    positive.
   */
  lemma MapPortBadFromIsWildcard(from: string, to: string, d: AddrSpec)
    requires !IsDecimal(from) && !Overflows(from)
    requires Atoi(to) > 0
    ensures Rewrite(Live, MapPort(from, to), Some(d)) == Some(d.(port := Atoi(to)))
  {
    assert from != "0";
  }

  /**
    A `from` whose digits overflow `uint64` reads as an `int64` bound: with
    a minus sign it is negative, so the mapper is a wildcard; otherwise it is
    `MaxInt64`, which only a port of that value would match.
   */
  lemma MapPortOverflowingFrom(from: string, to: string, d: AddrSpec)
    requires Overflows(from)
    ensures Negative(from) && Atoi(to) > 0 ==>
      Rewrite(Live, MapPort(from, to), Some(d)) == Some(d.(port := Atoi(to)))
    ensures !Negative(from) && d.port != MaxInt64 ==>
      Rewrite(Live, MapPort(from, to), Some(d)) == Some(d)
  {
    ZeroReadsZero();
  }

  /**
    An unparsable `to` whose digits do not overflow first becomes the
    preserving 0: the mapper returns every destination unchanged.
   */
  lemma MapPortBadToPreserves(ctx: Context, from: string, to: string, dest: Option<AddrSpec>)
    requires !IsDecimal(to) && !Overflows(to)
    requires Callable(ctx, dest)
    ensures Rewrite(ctx, MapPort(from, to), dest) == dest
  {
    assert to != "0";
  }

  /**
    A `to` whose digits overflow `uint64` reads as an `int64` bound: with a
    minus sign the mapper preserves every destination; otherwise a matching
    request is sent to port `MaxInt64`.
   */
  lemma MapPortOverflowingTo(ctx: Context, from: string, to: string, dest: Option<AddrSpec>)
    requires Overflows(to)
    requires Callable(ctx, dest)
    ensures Negative(to) ==> Rewrite(ctx, MapPort(from, to), dest) == dest
    ensures !Negative(to) && ctx.Live? && (Atoi(from) <= 0 || dest.value.port == Atoi(from)) ==>
      Rewrite(ctx, MapPort(from, to), dest) == Some(dest.value.(port := MaxInt64))
  {
    ZeroReadsZero();
  }

  // ---------------------------------------------------------------------
  // withTranslation (redirect)
  // ---------------------------------------------------------------------

  /** On a cancelled context the redirect answers nil, not the request. */
  lemma RedirectCancelled(ctx: Context, target: AddrSpec, dest: Option<AddrSpec>)
    requires ctx.Done?
    ensures Rewrite(ctx, Redirect(target), dest) == None
  {
  }

  /** A configured port of 0 keeps the requested port. */
  lemma RedirectKeepsRequestedPort(target: AddrSpec, d: AddrSpec)
    requires target.port == 0
    ensures Rewrite(Live, Redirect(target), Some(d)) == Some(AddrSpec(target.fqdn, target.ip, d.port))
  {
  }

  /** A configured non-zero port sends every request to the configured address. */
  lemma RedirectFixed(target: AddrSpec, d: AddrSpec)
    requires target.port != 0
    ensures Rewrite(Live, Redirect(target), Some(d)) == Some(target)
  {
  }

  /** The requested host never matters, and redirecting twice is redirecting once. */
  lemma RedirectIgnoresHost(target: AddrSpec, d1: AddrSpec, d2: AddrSpec)
    requires d1.port == d2.port
    ensures Rewrite(Live, Redirect(target), Some(d1)) == Rewrite(Live, Redirect(target), Some(d2))
    ensures var once := Rewrite(Live, Redirect(target), Some(d1));
      Rewrite(Live, Redirect(target), once) == once
  {
  }

  /**
    `LoopbackRewriter` sends every request to 127.0.0.1 on the requested
    port, given that the address parser reads "127.0.0.1:0" as such.
   */
  lemma LoopbackRewriterKeepsPort(p: Parsers, d: AddrSpec)
    requires p.parseAddrSpec("127.0.0.1:0") == Some(AddrSpec("", Loopback, 0))
    ensures Rewrite(Live, LoopbackRewriter(p), Some(d)) == Some(AddrSpec("", Loopback, d.port))
  {
  }

  // ---------------------------------------------------------------------
  // hostTranslation
  // ---------------------------------------------------------------------

  /** A cancelled context leaves the destination alone. */
  lemma HostTranslateCancelled(ctx: Context, ip: IP, dest: Option<AddrSpec>)
    requires ctx.Done?
    ensures Rewrite(ctx, HostTranslate(ip), dest) == dest
  {
  }

  /**
    A live translation answers the configured IP on the requested port, and
    drops any requested name; translating twice is translating once.
   */
  lemma HostTranslateLive(ip: IP, d: AddrSpec)
    ensures Rewrite(Live, HostTranslate(ip), Some(d)) == Some(AddrSpec("", ip, d.port))
    ensures var once := Rewrite(Live, HostTranslate(ip), Some(d));
      Rewrite(Live, HostTranslate(ip), once) == once
  {
  }

  /** A host that does not parse as an IP translates every request to the nil IP. */
  lemma RewriteHostNotAnIP(p: Parsers, host: string, d: AddrSpec)
    requires p.parseIP(host).None?
    ensures Rewrite(Live, RewriteHost(p, host), Some(d)) == Some(AddrSpec("", NilIP, d.port))
  {
  }

  // ---------------------------------------------------------------------
  // chain
  // ---------------------------------------------------------------------

  /** The identity rewriter and the empty chain return the destination unchanged. */
  lemma EmptyChainIsIdentity(ctx: Context, dest: Option<AddrSpec>)
    requires Callable(ctx, dest)
    ensures Rewrite(ctx, Chain([]), dest) == dest
    ensures Rewrite(ctx, NoRewrite, dest) == dest
  {
  }

  /** The last rewriter of a chain receives what the rest of the chain produced. */
  lemma {:induction false} FoldSnoc(ctx: Context, rs: seq<Rewriter>, last: Rewriter, dest: Option<AddrSpec>)
    requires Callable(ctx, dest)
    ensures Fold(ctx, rs + [last], dest) == Rewrite(ctx, last, Fold(ctx, rs, dest))
  {
    if rs != [] {
      assert (rs + [last])[1..] == rs[1..] + [last];
      FoldSnoc(ctx, rs[1..], last, Rewrite(ctx, rs[0], dest));
    }
  }

  /** Running `a + b` is running `a`, then `b` on its output. */
  lemma {:induction false} FoldAppend(ctx: Context, a: seq<Rewriter>, b: seq<Rewriter>, dest: Option<AddrSpec>)
    requires Callable(ctx, dest)
    ensures Fold(ctx, a + b, dest) == Fold(ctx, b, Fold(ctx, a, dest))
  {
    if a == [] {
      assert a + b == b;
    } else {
      assert (a + b)[1..] == a[1..] + b;
      FoldAppend(ctx, a[1..], b, Rewrite(ctx, a[0], dest));
    }
  }

  /** A chain nested inside a chain behaves as its rewriters spliced in place. */
  lemma ChainFlatten(ctx: Context, a: seq<Rewriter>, b: seq<Rewriter>, c: seq<Rewriter>, dest: Option<AddrSpec>)
    requires Callable(ctx, dest)
    ensures Rewrite(ctx, Chain(a + [Chain(b)] + c), dest) == Rewrite(ctx, Chain(a + b + c), dest)
  {
    FoldAppend(ctx, a + [Chain(b)], c, dest);
    FoldSnoc(ctx, a, Chain(b), dest);
    FoldAppend(ctx, a + b, c, dest);
    FoldAppend(ctx, a, b, dest);
  }

  /**
    At the top level, where the engine skips a nil rewriter, `NewChain` of
    any list acts as the full chain. (Inside a chain Go would call the nil
    rewriter and panic; the model does not.)
   */
  lemma NewChainActsAsChain(ctx: Context, rs: seq<Rewriter>, dest: Option<AddrSpec>)
    requires Callable(ctx, dest)
    ensures Rewrite(ctx, NewChain(rs), dest) == Rewrite(ctx, Chain(rs), dest)
  {
    if |rs| == 1 {
      assert rs[1..] == [];
      assert Fold(ctx, rs, dest) == Fold(ctx, [], Rewrite(ctx, rs[0], dest));
    }
  }

  /** Whether a redirect occurs anywhere in a rewriter. */
  predicate HasRedirect(rw: Rewriter) {
    match rw
    case Redirect(_) => true
    case Chain(rs) => exists r | r in rs :: HasRedirect(r)
    case _ => false
  }

  /**
    On a cancelled context a rewriter is the identity unless it contains a
    redirect, and then it answers nil: the nil of one redirect survives
    every rewriter after it.
   */
  lemma {:induction false} CancelledRewrite(ctx: Context, rw: Rewriter, dest: Option<AddrSpec>)
    requires ctx.Done?
    ensures Rewrite(ctx, rw, dest) == if HasRedirect(rw) then None else dest
    decreases rw, 1
  {
    if rw.Chain? {
      CancelledFold(ctx, rw.rewriters, dest);
    }
  }

  lemma {:induction false} CancelledFold(ctx: Context, rs: seq<Rewriter>, dest: Option<AddrSpec>)
    requires ctx.Done?
    ensures Fold(ctx, rs, dest) == if exists r | r in rs :: HasRedirect(r) then None else dest
    decreases rs, 0
  {
    if rs != [] {
      CancelledRewrite(ctx, rs[0], dest);
      var next := Rewrite(ctx, rs[0], dest);
      CancelledFold(ctx, rs[1..], next);
      assert forall r :: r in rs <==> r == rs[0] || r in rs[1..] by {
        assert rs == [rs[0]] + rs[1..];
      }
    }
  }
}

=== FILE: rewriting.dfy ===
/**
  The address rewriters of socks-proxy: each maps the destination of a SOCKS
  request (`request.DestAddr`) to the destination the proxy really dials.

  A destination is an `Option<AddrSpec>` because Go passes a pointer: the
  redirect rewriter answers `nil` on a cancelled context, and a chain hands
  that `nil` on to the rewriters after it. A rewriter on a live context reads
  the requested port through that pointer, so a live call needs a non-nil
  destination; the SOCKS engine always supplies one.
 */
module Rewriting {
  import opened Wrappers
  import opened Net

  datatype Rewriter =
    | NoRewrite                       // the identity: `NoRewrite`, or a nil rewriter at top level
    | PortMap(from: int, to: int)     // portMapper
    | Redirect(target: AddrSpec)      // withTranslation
    | HostTranslate(ip: IP)           // hostTranslation
    | Chain(rewriters: seq<Rewriter>) // chain

  /** Whether a live rewrite may dereference `dest`: exactly when it is non-nil. */
  predicate Callable(ctx: Context, dest: Option<AddrSpec>) {
    ctx.Done? || dest.Some?
  }

  /** `Rewrite(ctx, request)` of each rewriter, keeping only the returned address. */
  function Rewrite(ctx: Context, rw: Rewriter, dest: Option<AddrSpec>): (r: Option<AddrSpec>)
    requires Callable(ctx, dest)
    ensures ctx.Live? ==> r.Some?
    decreases rw, 1
  {
    match rw
    case NoRewrite => dest
    case PortMap(from, to) =>
      if ctx.Done? then dest
      else if from > 0 && dest.value.port != from then dest
      else if to > 0 then Some(dest.value.(port := to))
      else dest
    case Redirect(target) =>
      if ctx.Done? then None
      else if target.port == 0 then Some(target.(port := dest.value.port))
      else Some(target)
    case HostTranslate(ip) =>
      if ctx.Done? then dest
      else Some(AddrSpec("", ip, dest.value.port))
    case Chain(rs) => Fold(ctx, rs, dest)
  }

  /**
    The loop of `chain.Rewrite`: each rewriter gets the previous one's
    output. The context is read once for the whole chain.
   */
  function Fold(ctx: Context, rs: seq<Rewriter>, dest: Option<AddrSpec>): (r: Option<AddrSpec>)
    requires Callable(ctx, dest)
    ensures ctx.Live? ==> r.Some?
    decreases rs, 0
  {
    if rs == [] then dest
    else Fold(ctx, rs[1..], Rewrite(ctx, rs[0], dest))
  }

  // ---------------------------------------------------------------------
  // Constructors
  // ---------------------------------------------------------------------

  /**
    `MapPort(from, to)`: the pair "0", "0" is the no-op rewriter; otherwise
    both strings go through `strconv.Atoi` with the error dropped.
   */
  function MapPort(from: string, to: string): Rewriter {
    if from == "0" && to == "0" then NoRewrite
    else PortMap(Atoi(from), Atoi(to))
  }

  /** `RedirectTo(addr)`: an error and no rewriter when `addr` does not parse. */
  function RedirectTo(p: Parsers, addr: string): (r: Result<Rewriter>)
    ensures r.Err? <==> p.parseAddrSpec(addr).None?
    ensures r.Ok? ==> r.value == Redirect(p.parseAddrSpec(addr).value)
    ensures !r.Panic?
  {
    match p.parseAddrSpec(addr)
    case None => Err(AddrParse(addr))
    case Some(a) => Ok(Redirect(a))
  }

  /** `RewriteHost(host)`: a host that is not an IP becomes the nil IP. */
  function RewriteHost(p: Parsers, host: string): Rewriter {
    HostTranslate(p.parseIP(host).GetOr(NilIP))
  }

  /** `NewChain(r...)`: none is nil, one is itself, more is a chain. */
  function NewChain(rs: seq<Rewriter>): Rewriter {
    if |rs| == 0 then NoRewrite
    else if |rs| == 1 then rs[0]
    else Chain(rs)
  }

  /**
    The package variable `LoopbackRewriter`, `RedirectTo("127.0.0.1:0")`
    with the error dropped: a failed parse would leave it nil.
   */
  function LoopbackRewriter(p: Parsers): Rewriter {
    match RedirectTo(p, "127.0.0.1:0")
    case Ok(rw) => rw
    case _ => NoRewrite
  }
}

=== FILE: server.dfy ===
/**
  The connection lifecycle controller of socks.go, one step at a time.

  Go runs the accept loop, each connection and a `Shutdown` caller
  concurrently, under a mutex, a `sync.Once` and atomics. The model takes
  their effects in some sequential order: every function below is one
  critical section applied to an immutable server record, except that
  some functions take two sections as one: `SetState` (tracking, then
  storing the state word), and every function that reads or writes the
  atomic shutdown flag, which it does together with the locked section
  next to it (`ServeEnter`, `AcceptFailed`, `Close`, `BeginShutdown`). The clock
  is a parameter (`now`, Unix seconds), and so is whatever the listener's
  own `Close` returns (`closeResult`).
 */
module SocksServer {
  import opened Wrappers
  import opened Net
  import opened PackedState

  /** A connection wrapper (`*conn`), by identity. */
  type ConnId = nat

  /** A `net.Listener`, by identity. */
  type ListenerId = nat

  datatype Server = Server(
    listener: Option<ListenerId>,  // s.l
    listenerClosed: bool,          // s.Once has run
    listenerErr: Option<Error>,    // s.lErr, cached by the Once
    listenerCloses: nat,           // how often the listener's own Close was called
    inShutdown: bool,              // s.inShutdown
    tracked: set<ConnId>,          // the keys of s.activeConn
    states: map<ConnId, Uint64>    // curState of every wrapper created so far
  )

  /** A server as `newServer` returns it. */
  const Initial: Server := Server(None, false, None, 0, false, {}, map[])

  /** A wrapper's state word; an untouched `atomic.Uint64` reads 0. */
  function PackedOf(s: Server, c: ConnId): Uint64 {
    if c in s.states then s.states[c] else 0
  }

  function StateOf(s: Server, c: ConnId): int {
    Unpack(PackedOf(s, c)).0
  }

  function TimeOf(s: Server, c: ConnId): Int64 {
    Unpack(PackedOf(s, c)).1
  }

  /** Everything but the connection `c` is as in `s`. */
  ghost predicate OnlyConnChanged(s: Server, r: Server, c: ConnId) {
    && r.listener == s.listener
    && r.listenerClosed == s.listenerClosed
    && r.listenerErr == s.listenerErr
    && r.listenerCloses == s.listenerCloses
    && r.inShutdown == s.inShutdown
    && (forall d :: d != c ==> (d in r.tracked <==> d in s.tracked))
    && (forall d :: d != c ==> PackedOf(r, d) == PackedOf(s, d))
  }

  // ---------------------------------------------------------------------
  // Tracking
  // ---------------------------------------------------------------------

  /** `trackConn(c, add)`: add or delete one key of the tracked set. */
  function TrackConn(s: Server, c: ConnId, add: bool): (r: Server)
    ensures c in r.tracked <==> add
    ensures OnlyConnChanged(s, r, c) && r.states == s.states
  {
    if add then s.(tracked := s.tracked + {c}) else s.(tracked := s.tracked - {c})
  }

  /**
    `setState(state)` at Unix time `now`: stateNew registers the connection,
    stateClosed deregisters it, any other state leaves the tracked set as it
    is; a state outside one byte panics; the new state word holds the state
    and the time.
   */
  function SetState(s: Server, c: ConnId, state: int, now: Int64): (r: Result<Server>)
    ensures r.Ok? <==> Packable(state)
    ensures r.Err? == false
    ensures r.Ok? ==> OnlyConnChanged(s, r.value, c)
    ensures r.Ok? && state == StateNew ==> c in r.value.tracked
    ensures r.Ok? && state == StateClosed ==> c !in r.value.tracked
    ensures r.Ok? && state != StateNew && state != StateClosed ==> (c in r.value.tracked <==> c in s.tracked)
    ensures r.Ok? ==> StateOf(r.value, c) == state && TimeOf(r.value, c) == now % TwoTo56
  {
    var s1 :=
      if state == StateNew then TrackConn(s, c, true)
      else if state == StateClosed then TrackConn(s, c, false)
      else s;
    if !Packable(state) then Panic("internal error")
    else
      UnpackPack(state, now);
      Ok(s1.(states := s1.states[c := Pack(state, now)]))
  }

  // ---------------------------------------------------------------------
  // Idle sweep
  // ---------------------------------------------------------------------

  /** New connections are left alone for this many seconds. */
  const InactiveThreshold: int := 3

  /** The sweep's test: still new, and last touched before `now - 3`. */
  predicate IdleNew(s: Server, c: ConnId, now: Int64) {
    StateOf(s, c) == StateNew && TimeOf(s, c) < now - InactiveThreshold
  }

  /** The reference sweep: panic on a zero timestamp, else drop exactly the idle new ones. */
  function SweepIdle(s: Server, now: Int64): Result<(Server, bool)> {
    if exists c | c in s.tracked :: TimeOf(s, c) == 0 then Panic("attempted to close untracked connection")
    else
      var kept := set c | c in s.tracked && !IdleNew(s, c, now);
      Ok((s.(tracked := kept), kept == {}))
  }

  /**
    `closeIdleConns`, as its loop runs: each tracked connection is read once;
    an idle new one is closed and deleted, any other makes the server not
    quiescent.
   */
  method CloseIdleConns(s: Server, now: Int64) returns (r: Result<(Server, bool)>)
    ensures r == SweepIdle(s, now)
    ensures r.Panic? <==> exists c | c in s.tracked :: TimeOf(s, c) == 0
    ensures r.Ok? ==> forall c :: c in r.value.0.tracked <==> c in s.tracked && !IdleNew(s, c, now)
    ensures r.Ok? ==> forall c | c in s.tracked && StateOf(s, c) == StateActive :: c in r.value.0.tracked
    ensures r.Ok? ==> (r.value.1 <==> r.value.0.tracked == {})
    ensures r.Ok? ==> r.value.0 == s.(tracked := r.value.0.tracked)
  {
    var active := s.tracked;
    var remaining := s.tracked;
    var quiescent := true;
    while remaining != {}
      invariant remaining <= s.tracked
      invariant forall c | c in s.tracked - remaining :: TimeOf(s, c) != 0
      invariant forall c :: c in active <==> c in remaining || (c in s.tracked && !IdleNew(s, c, now))
      invariant quiescent <==> forall c | c in s.tracked - remaining :: IdleNew(s, c, now)
      decreases remaining
    {
      var c :| c in remaining;
      var (st, unix) := Unpack(PackedOf(s, c));
      if unix == 0 {
        return Panic("attempted to close untracked connection");
      }
      var inactiveNew := st == StateNew && unix < now - InactiveThreshold;
      if inactiveNew {
        active := active - {c};
      } else {
        quiescent := false;
      }
      remaining := remaining - {c};
    }
    var kept := set c | c in s.tracked && !IdleNew(s, c, now);
    assert active == kept;
    assert quiescent <==> kept == {} by {
      if !quiescent {
        var c :| c in s.tracked && !IdleNew(s, c, now);
        assert c in kept;
      }
    }
    r := Ok((s.(tracked := active), quiescent));
  }

  /** Every tracked connection is new, stamped, and older than the grace period. */
  predicate AllIdleNew(s: Server, now: Int64) {
    forall c | c in s.tracked :: TimeOf(s, c) != 0 && IdleNew(s, c, now)
  }

  /** A sweep leaves nothing behind exactly when every connection was idle and new. */
  lemma SweepDrainsIdle(s: Server, now: Int64)
    requires forall c | c in s.tracked :: TimeOf(s, c) != 0
    ensures SweepIdle(s, now).Ok?
    ensures SweepIdle(s, now).value.1 <==> AllIdleNew(s, now)
  {
    var kept := set c | c in s.tracked && !IdleNew(s, c, now);
    if !AllIdleNew(s, now) {
      var c :| c in s.tracked && !IdleNew(s, c, now);
      assert c in kept;
    }
  }

  // ---------------------------------------------------------------------
  // Listener
  // ---------------------------------------------------------------------

  /**
    `closeListener`: the Once runs the listener's Close the first time and
    caches its error; every call returns the cached error. A nil listener
    panics inside the Once.
   */
  function CloseListener(s: Server, closeResult: Option<Error>): (r: Result<(Server, Option<Error>)>)
    ensures r.Err? == false
    ensures r.Panic? <==> !s.listenerClosed && s.listener.None?
    ensures s.listenerClosed ==> r == Ok((s, s.listenerErr))
    ensures r.Ok? ==> r.value.0.listenerClosed && r.value.1 == r.value.0.listenerErr
    ensures r.Ok? ==> r.value.0.listenerCloses == if s.listenerClosed then s.listenerCloses else s.listenerCloses + 1
    ensures r.Ok? && !s.listenerClosed ==> r.value.1 == closeResult
    ensures r.Ok? ==> r.value.0 == s.(listenerClosed := true, listenerErr := r.value.1, listenerCloses := r.value.0.listenerCloses)
  {
    if s.listenerClosed then Ok((s, s.listenerErr))
    else if s.listener.None? then Panic("nil listener")
    else Ok((s.(listenerClosed := true, listenerErr := closeResult, listenerCloses := s.listenerCloses + 1), closeResult))
  }

  /** `closeAndClearListener`: close (once) and forget the listener. */
  function CloseAndClearListener(s: Server, closeResult: Option<Error>): (r: Result<(Server, Option<Error>)>)
    ensures r.Err? == false
    ensures r.Panic? <==> !s.listenerClosed && s.listener.None?
    ensures r.Ok? ==> r.value.0.listener.None? && r.value.0.listenerClosed
    ensures r.Ok? ==> r.value.1 == r.value.0.listenerErr
    ensures r.Ok? && s.listenerClosed ==> r.value.1 == s.listenerErr
    ensures r.Ok? && !s.listenerClosed ==> r.value.1 == closeResult
    ensures r.Ok? ==> r.value.0.listenerCloses == if s.listenerClosed then s.listenerCloses else s.listenerCloses + 1
    ensures r.Ok? ==> r.value.0 == s.(listener := None, listenerClosed := true, listenerErr := r.value.1,
                                      listenerCloses := r.value.0.listenerCloses)
  {
    match CloseListener(s, closeResult)
    case Ok((s1, err)) => Ok((s1.(listener := None), err))
    case Panic(why) => Panic(why)
  }

  // ---------------------------------------------------------------------
  // Serve, Close and the start of Shutdown
  // ---------------------------------------------------------------------

  /**
    Entering `Serve(l)`. When the server is already shutting down, Serve
    returns ErrServerClosed at once (after its deferred close-and-clear);
    otherwise it stores the listener and starts accepting (None).
   */
  function ServeEnter(s: Server, l: ListenerId, closeResult: Option<Error>): (r: Result<(Server, Option<Error>)>)
    ensures r.Err? == false
    ensures s.inShutdown ==> r.Panic? || (r.Ok? && r.value.1 == Some(ServerClosed) && r.value.0.listener.None?)
    ensures !s.inShutdown ==> r == Ok((s.(listener := Some(l)), None))
    ensures r.Ok? ==> r.value.0.inShutdown == s.inShutdown && r.value.0.tracked == s.tracked
  {
    if s.inShutdown then
      match CloseAndClearListener(s, closeResult)
      case Ok((s1, _)) => Ok((s1, Some(ServerClosed)))
      case Panic(why) => Panic(why)
    else Ok((s.(listener := Some(l)), None))
  }

  /** The accept loop gets connection `c` at `now`: `serveConn` wraps it as new. */
  function Accepted(s: Server, c: ConnId, now: Int64): (r: Result<Server>)
    ensures r.Ok? && c in r.value.tracked && StateOf(r.value, c) == StateNew
    ensures OnlyConnChanged(s, r.value, c)
  {
    SetState(s, c, StateNew, now)
  }

  /**
    The accept loop gets an error: Serve returns ErrServerClosed when the
    server is shutting down and the error itself otherwise, after its
    deferred close-and-clear.
   */
  function AcceptFailed(s: Server, err: Error, closeResult: Option<Error>): (r: Result<(Server, Error)>)
    ensures r.Err? == false
    ensures r.Ok? ==> r.value.1 == if s.inShutdown then ServerClosed else err
    ensures r.Ok? ==> r.value.0.listener.None? && r.value.0.listenerClosed
    ensures r.Ok? ==> r.value.0.inShutdown == s.inShutdown && r.value.0.tracked == s.tracked
  {
    var returned := if s.inShutdown then ServerClosed else err;
    match CloseAndClearListener(s, closeResult)
    case Ok((s1, _)) => Ok((s1, returned))
    case Panic(why) => Panic(why)
  }

  /**
    `Close`: shut down, close the listener (once), close and forget every
    tracked connection, and return the cached listener error.
   */
  function Close(s: Server, closeResult: Option<Error>): (r: Result<(Server, Option<Error>)>)
    ensures r.Err? == false
    ensures r.Panic? <==> !s.listenerClosed && s.listener.None?
    ensures r.Ok? ==> r.value.0.inShutdown && r.value.0.tracked == {} && r.value.0.listenerClosed
    ensures r.Ok? ==> r.value.1 == r.value.0.listenerErr
    ensures r.Ok? && s.listenerClosed ==> r.value.1 == s.listenerErr
  {
    match CloseListener(s.(inShutdown := true), closeResult)
    case Ok((s1, err)) => Ok((s1.(tracked := {}), err))
    case Panic(why) => Panic(why)
  }

  /** The first half of `Shutdown`: mark the server shutting down and close the listener (once). */
  function BeginShutdown(s: Server, closeResult: Option<Error>): (r: Result<(Server, Option<Error>)>)
    ensures r.Err? == false
    ensures r.Panic? <==> !s.listenerClosed && s.listener.None?
    ensures r.Ok? ==> r.value.0.inShutdown && r.value.0.listenerClosed && r.value.1 == r.value.0.listenerErr
    ensures r.Ok? ==> r.value.0.tracked == s.tracked && r.value.0.states == s.states
    ensures r.Ok? && s.listenerClosed ==> r.value.1 == s.listenerErr
  {
    CloseListener(s.(inShutdown := true), closeResult)
  }
}

=== FILE: wrappers.dfy ===
/**
  Failure-carrying values shared by every module of the model.

  Go reports failures in two ways that the model keeps apart: an `error`
  return value (a `Result.Err`), and a `panic` that unwinds the goroutine
  (a `Result.Panic`). A Go `nil` pointer or `nil` error is an `Option.None`.
 */
module Wrappers {

  datatype Option<+T> = None | Some(value: T) {

    /** The value, or `default` when there is none. */
    function GetOr(default: T): T {
      match this
      case Some(v) => v
      case None => default
    }
  }

  /** The error values the modelled code produces or passes through. */
  datatype Error =
    | ServerClosed                 // socks.ErrServerClosed
    | NotAnIP                      // "target address is not an IP"
    | AddrParse(input: string)     // statute.ParseAddrSpec rejected `input`
    | NetError(code: int)          // an error from a socket or listener

  datatype Result<+T> = Ok(value: T) | Err(error: Error) | Panic(reason: string)

  /**
    A `context.Context` as the modelled code sees it: either still live, or
    done, in which case `ctx.Err()` is `reason`. Which error that is does not
    matter here: the modelled code only passes it on.
   */
  datatype Context = Live | Done(reason: Error)
}
